=== FILE: README.md ===
# Smart rate limiter: a Dafny model of the adaptive token bucket

This project models the decision logic of the self-tuning token bucket in
`SmartTokenBucket.go` and the FIFO queue of `Queue.go`.

- The bucket holds at most `Capacity` tokens. A refill tick adds one token when
  there is room.
- `GetToken` always counts the attempt as demand. It then takes a token if one
  is buffered.
- Once per second a snapshot trims the window of per-second demand samples. It
  pushes the counter, zeroes it, and takes the window's maximum as
  `RealPerSecond`, the observed rate.
- Every ten seconds the refill rate is cut by 10% under load. It is raised by
  10% when the host is idle and observed demand exceeds the rate. The refill
  ticker is then rebuilt at one second divided by the rate. As written, the
  refill loop keeps waiting on the old, stopped ticker, so refills stop after
  the first rebuild (see "## Findings").

The model has no goroutines. Each loop body is one pure step on an immutable
`Bucket.Bucket` value. The buffered channel becomes a count of tokens. The
ticker becomes the period, in nanoseconds, it was built with. The CPU and
memory readings are parameters. Go's runtime panics become a `Panics.Result`:

- `make` with a negative buffer size (the runtime's upper size limit is not
  modelled, see below);
- integer division by a zero rate;
- `time.NewTicker` with a period that is not positive.

Modules:

- `Fifo` (`fifo.dfy`): the queue.
- `Window` (`window.dfy`): the trim loop and the maximum scan, written as the
  source's loops and proved equal to closed-form definitions.
- `Rate` (`rate.dfy`): the rate decision and the refill period.
- `Bucket` (`bucket.dfy`): the state and its steps, plus the invariant `Valid`.
- `Trace` (`trace.dfy`): runs of interleaved steps and the guarantees that
  hold over whole runs.

Points where the code does something other than its comments describe. The model follows the code in each case:

- **Window size.** The comment above the trim loop says the window is trimmed
  "until size=10". The doc comment of `resetAndSaveCounter` says the real rate
  is the largest per-second count "within the last 10s". The loop
  compares its counter with `len - 10` and re-reads the length after every
  pop, so from length `n` it pops ceil((n - 10) / 2) samples. From at most 11
  samples it does leave at most 10. The push that follows then makes 11. In
  steady state the window holds 11 samples, so `RealPerSecond` is the maximum
  over the last eleven seconds. This holds whatever acquires, refills and
  adaptation passes come between the snapshots (`Trace.WindowFills`). From 12
  samples or more
  the loop would stop above 10, but no run reaches that length.
- **CPU threshold.** Both load checks compare the CPU reading against
  `MemPercent`. The `CpuPercent` threshold is stored but never read
  (`Bucket.CpuPercentUnused`, `Rate.CpuJudgedByMemoryThreshold`).
- **Independent checks.** The decrease and increase checks are two separate
  `if`s. With a threshold of zero or more they cannot both fire
  (`Rate.ChecksExclusive`). The readings are percentages and never negative,
  and with such readings they cannot both fire for any threshold
  (`Rate.ChecksExclusiveForReadings`), so in the program the two `if`s act as
  an if/else. Only with a negative threshold and negative readings, which the
  host never reports, do both fire, cutting and then raising the rate in one
  pass (`Rate.BothChecksFireBelowZero`).
- **Small rates are stuck.** `r/10` truncates, so a rate from 1 to 9 is never
  changed by either branch (`Rate.NextRate`).
- **Fast rates panic.** At a rate above one billion per second the refill
  period rounds to zero nanoseconds, and `time.NewTicker` panics. The
  constructor panics for such a rate. An increase that crosses the bound
  panics inside `updateRate` (`Bucket.UpdateRate`). A decrease from a valid
  rate never panics. Because of this, valid rates stay far below the int64
  range.

## Model

| member | source | states |
|---|---|---|
| `Fifo.Push` | Queue.go:6-8 | the queue grows by one; every old element keeps its place; the new value is last |
| `Fifo.Pop` | Queue.go:11-15 | needs a non-empty queue (indexing an empty slice panics); the head followed by the rest is the old queue |
| `Fifo.PopPushedOnEmpty` | Queue.go:6-15 | pushing onto an empty queue and then popping returns the pushed value and leaves the queue empty |
| `Fifo.PopAfterPush` | Queue.go:6-15 | on a non-empty queue, a pop after a push returns the old head; the rest is the old rest with the value appended |
| `Window.PopCount` | SmartTokenBucket.go:141-143 | the trim loop pops nothing from at most 10 samples and pops down to 10 from 11; above 10 it pops ceil((n-10)/2) samples |
| `Window.Trimmed` | SmartTokenBucket.go:140-143 | the trimmed window is a suffix of the old one, so the oldest samples go first; from at most 11 samples it keeps min(n, 10); it never keeps fewer than 10 of at least 10; above 11 it keeps more than 10 |
| `Window.TrimWindow` | SmartTokenBucket.go:141-143 | the loop as written, popping while its counter is below the current length minus 10, computes `Trimmed`; from at most 11 samples it leaves at most 10 |
| `Window.MaxOf` | SmartTokenBucket.go:152-158 | the observed rate is at least 0 and at least every sample; it is either 0 or one of the samples |
| `Window.WindowMax` | SmartTokenBucket.go:152-157 | the scan from 0 that keeps the larger value computes `MaxOf` |
| `Window.MaxOfPush` | SmartTokenBucket.go:145-158 | pushing a sample never lowers the maximum; the maximum covers the new sample; a new largest sample becomes the maximum |
| `Rate.QuoTruncates` | SmartTokenBucket.go:130 | `Quo` meets Go's definition of int64 `/`: the remainder a - q*b is smaller than the divisor in magnitude and is zero or has the sign of the dividend (truncation toward zero) |
| `Rate.GetDuration` | SmartTokenBucket.go:129-131 | a zero rate panics; for a positive rate the period is the floor of 1e9/rate nanoseconds; it is positive exactly when the rate is at most 1e9 |
| `Rate.RefillInterval` | SmartTokenBucket.go:123-127 | a refill ticker can be built exactly for rates 1..1e9, with a period in 1..1e9 ns; otherwise the division panic or the non-positive-interval panic |
| `Rate.Decrease` | SmartTokenBucket.go:106 | the 10% cut keeps a rate of at least 1 at 1 or more and never raises it; it lowers rates of 10 or more; it leaves rates below 10 unchanged |
| `Rate.Increase` | SmartTokenBucket.go:113 | the 10% rise never lowers a non-negative rate and adds at most rate/10; it raises rates of 10 or more; it leaves rates below 10 unchanged |
| `Rate.NextRate` | SmartTokenBucket.go:105-115 | a rate of at least 1 stays at least 1; rates below 10 never move; with a threshold of 0 or more, overload gives r - r/10; with any threshold, overload without the idle condition gives r - r/10; otherwise an idle host with demand above the rate gives r + r/10; else no change; with a threshold of 0 or more, a fall implies overload and a rise implies idle load with demand above the rate; with non-negative readings and any threshold, overload gives r - r/10, a fall implies overload and a rise implies idle load with demand above the rate; when both conditions hold (possible only with a negative threshold and negative readings), the rate is cut to r - r/10 and then, if demand exceeds the cut rate, raised by a tenth of the cut rate |
| `Rate.ChecksExclusive` | SmartTokenBucket.go:105-112 | with a threshold of 0 or more, the overload and idle conditions never hold together |
| `Rate.ChecksExclusiveForReadings` | SmartTokenBucket.go:102-112 | with non-negative CPU and memory readings, the overload and idle conditions never hold together, whatever the threshold |
| `Rate.BothChecksFireBelowZero` | SmartTokenBucket.go:105-115 | with threshold -10 and readings -9, inputs the host never reports, both checks fire, and rate 100 ends at 99 |
| `Rate.RateMovesOnlyOnRebuild` | SmartTokenBucket.go:105-115 | a pass that calls `doUpdateRate` neither for the cut nor for the rise leaves the rate unchanged; from 10 up with a threshold of 0 or more, a pass rebuilds the ticker exactly when the rate moves; below 10 an overloaded pass rebuilds the ticker at the same rate |
| `Rate.CpuJudgedByMemoryThreshold` | SmartTokenBucket.go:105 | a CPU reading above `MemPercent` cuts a rate of 10 or more even with memory idle |
| `Bucket.New` | SmartTokenBucket.go:28-47 | a negative capacity or a rate outside 1..1e9 panics, and otherwise construction succeeds (the runtime's upper limit on buffer size is not modelled); the new state is valid, with an empty buffer, counter 0, an empty window, observed rate 0 and the given rate and thresholds |
| `Bucket.DoAdd` | SmartTokenBucket.go:86-90 | below capacity exactly one token is added, otherwise nothing changes; nothing else changes; validity (tokens at most capacity) is kept |
| `Bucket.GetToken` | SmartTokenBucket.go:61-69 | the counter rises by exactly 1 either way; granted iff a token was buffered, and then exactly one token leaves; else the buffer is unchanged; validity is kept |
| `Bucket.Snapshot` | SmartTokenBucket.go:140-158 | a window of at most 11 stays at most 11; it grows by one up to 11; the last sample is the old counter and the rest is a suffix of the old window; the counter ends at 0; the observed rate is the window maximum and at least the pushed sample; validity is kept |
| `Bucket.DoUpdateRate` | SmartTokenBucket.go:123-127 | rebuilding the ticker succeeds exactly for rates 1..1e9 and changes only the ticker period, which matches the rate |
| `Bucket.UpdateRate` | SmartTokenBucket.go:105-115 | from a valid state the new rate is `Rate.NextRate` of the readings; the pass panics (non-positive interval) exactly when that rate exceeds 1e9; otherwise the state stays valid and only rate and ticker change; a pass that calls `doUpdateRate` for neither check leaves the state as it was |
| `Bucket.CpuPercentUnused` | SmartTokenBucket.go:37 | changing the stored CPU threshold changes neither whether an adaptation pass panics nor its outcome |
| `Trace.Step` | SmartTokenBucket.go:49-162 | one body of the `add`, `updateRate` or `resetAndSaveCounter` loop, or one `GetToken` call: only the acquire can grant a token, and only the adaptation pass can panic |
| `Trace.Run` | SmartTokenBucket.go:61-69 | a run grants at most as many tokens as it has acquires; a run with no adaptation pass never panics |
| `Trace.ProgramRun` | SmartTokenBucket.go:49-127 | runs as written, where `add` keeps waiting on a stopped ticker: once a pass rebuilds the ticker, refill ticks add nothing, and tokens granted plus tokens left are at most those buffered at that point; before it, at most those buffered plus the refill ticks |
| `Trace.ProgramRunAgrees` | SmartTokenBucket.go:49-56 | with no adaptation pass, the runs as written and the model's runs agree exactly |
| `Trace.RebuildStallsRefill` | SmartTokenBucket.go:49-127 | a bucket of capacity 10 at rate 100, threshold 80, CPU reading 90: the cut rebuilds the ticker; as written the following refill and acquire grant nothing, while with refills continuing the acquire is granted |
| `Trace.RefillAfterAdapt` | SmartTokenBucket.go:86-127 | in the model's runs, a refill tick after any adaptation pass that does not panic adds one token when the buffer has room |
| `Trace.RunKeepsValid` | SmartTokenBucket.go:40-47 | every state reached from a valid state is valid: tokens at most capacity, rate in 1..1e9 with a matching ticker, window at most 11, observed rate equal to the window maximum |
| `Trace.TokensConserved` | SmartTokenBucket.go:61-90 | tokens granted plus tokens left are at most the initial tokens plus the refill ticks |
| `Trace.AdmissionBound` | SmartTokenBucket.go:61-90 | from a valid state, successful acquires in a run are at most capacity plus the refill ticks |
| `Trace.NoGrantBeforeRefill` | SmartTokenBucket.go:31 | a new bucket's buffer starts empty, so a run without refill ticks grants nothing |
| `Trace.DemandCounted` | SmartTokenBucket.go:61-62 | with no snapshot in between, the counter rises by exactly the number of acquires |
| `Trace.WindowFills` | SmartTokenBucket.go:140-145 | over any run that does not panic, from a window of at most 11 samples, the window grows by one per snapshot up to 11 and then stays at 11; refills, acquires and adaptation passes leave it alone |

## Left out

- The goroutine loops `add`, `updateRate` and `resetAndSaveCounter`, and the
  tickers that drive them. They are timing and concurrency. Each loop body is
  one step, and `Trace.Run` takes any interleaving of steps.
- `TryGetToken` (SmartTokenBucket.go:74-84): its timed wait only means
  something with timers and concurrent producers. It counts demand in the same
  way `GetToken` does (line 75).
- The compare-and-swap loop that resets `Counter`, and the non-atomic read of
  `Counter` before the push. Lost updates are a concurrency question, so the
  sequential model pushes the counter and then zeroes it.
- `mem.VirtualMemory` and `cpu.Percent`, and the errors they return, which the
  source ignores: the readings are parameters of `Bucket.UpdateRate`.
- The `fmt.Printf` logging in `updateRate`.
- Stopping the old ticker in `doUpdateRate`. `Trace.Run` and the other
  `Bucket` and `Trace` members keep refill ticks coming after every rebuild,
  at the new period. In the program `add` keeps waiting on the stopped ticker,
  so no token is ever added again after the first pass that calls
  `doUpdateRate`. Every cut and every rise calls it, even when a rate below 10
  stays unchanged. `Trace.ProgramRun` models that
  behaviour (see "## Findings"). `Trace.TokensConserved` and
  `Trace.AdmissionBound` stay sound for the program. They are upper bounds,
  and the program's runs give no more refills than the model's runs.
  `Trace.RunKeepsValid`, `Trace.DemandCounted` and `Trace.WindowFills` do not
  depend on refills at all.
- Rate.NextRate: percentages are exact reals, so float64 rounding of
  `MemPercent - MemPercent/5` is not modelled.
- Bucket.New: the Go runtime's `makechan` also panics for a buffer too large
  to allocate (about 2^48 bytes on 64-bit Linux), and it allocates the whole
  buffer at once. The model has no upper bound on capacity: that limit
  depends on the platform and the runtime version, not on this code.
- Bucket.New: with a negative capacity and a zero rate, the model reports the
  buffer-size panic. Go evaluates the `make` call before the `time.NewTicker`
  call, but does not fix the order of the division inside the ticker's
  argument relative to `make`, so Go may report the division panic instead.
  Whether it panics is the same either way.
- Integers are unbounded. int64 overflow of the counter and of `r + r/10` is
  not modelled. Valid rates are at most 1e9, so `r + r/10` cannot overflow
  from a valid state.
- Which of `add` and `doUpdateRate` runs first is a race. `add` escapes the
  stall only if it is between two `select`s at the moment the ticker is
  swapped. `Trace.ProgramRun` takes the usual case, where `add` is waiting.
- `SmartTokenBucket_test.go` only calls the constructor and the acquire
  functions. It asserts nothing.

## Findings

| source | as written | input that shows it | evidently intended | confidence | as-written member | corrected member |
|---|---|---|---|---|---|---|
| SmartTokenBucket.go:49-127 | `add` takes `AddTimer.C` once per `select` and waits on it. `doUpdateRate` installs a new ticker and stops the old one, and a stopped ticker never sends again or closes its channel. So the waiting `add` never wakes, and refills stop after the first rebuild | `NewTokenBucket(10, 100, 0, 80)`, one adaptation pass with a CPU reading of 90%, then a refill tick and `GetToken`: the tick never arrives and `GetToken` returns false | refills continue at the rebuilt rate, so the acquire is granted | medium: depends on `add` waiting when the ticker is swapped, which is the usual case; not executed | `Trace.ProgramRun`, `Trace.RebuildStallsRefill` | `Trace.Run`, `Trace.RefillAfterAdapt` |

=== FILE: bucket.dfy ===
/** The `TokenBucket` of `SmartTokenBucket.go` as an immutable state, with one
    pure step per operation: construction, one refill tick (`doAdd`), one
    non-blocking acquire (`GetToken`), one per-second snapshot (the body of
    `resetAndSaveCounter`) and one adaptation pass (the body of `updateRate`).
    The buffered channel `Ch` becomes the count of tokens it holds, and the
    refill ticker becomes the period, in nanoseconds, it was built with. */
module Bucket {
  import opened Panics
  import Fifo
  import Window
  import Rate

  datatype Bucket = Bucket(
    capacity: int,        // `Capacity`, also the buffer size of `Ch`
    tokens: nat,          // tokens buffered in `Ch`
    rate: int,            // `CountPerSecond`
    interval: int,        // period of `AddTimer`, in nanoseconds
    realPerSecond: int,   // `RealPerSecond`
    counter: int,         // `Counter`: acquire attempts since the last snapshot
    window: Fifo.Queue,   // `RealPerSenconds`
    cpuPercent: real,     // `CpuPercent` (stored, never read)
    memPercent: real)     // `MemPercent`

  /** The invariant every reachable state keeps: the buffer holds at most
      `Capacity` tokens, the rate is one a refill ticker can be built for and
      the last ticker was built for that rate, the window holds at most eleven samples,
      and the observed rate is the window's maximum. */
  ghost predicate Valid(b: Bucket) {
    && 0 <= b.tokens <= b.capacity
    && 1 <= b.rate <= Rate.NanosPerSecond
    && Rate.RefillInterval(b.rate) == Ok(b.interval)
    && |b.window| <= Window.Keep + 1
    && b.realPerSecond == Window.MaxOf(b.window)
    && b.counter >= 0
  }

  /** `NewTokenBucket`: an empty buffer, no demand, an empty window, and a
      refill ticker at the given rate. `make` panics on a negative buffer
      size, the division panics on a zero rate, and `NewTicker` panics when
      the rate is negative or above one billion per second. */
  function New(capacity: int, countPerSecond: int, cpuPercent: real, memPercent: real): (r: Result<Bucket>)
    ensures r.Ok? <==> capacity >= 0 && 1 <= countPerSecond <= Rate.NanosPerSecond
    ensures capacity < 0 ==> r == Fail(NegativeBufferSize)
    ensures capacity >= 0 && countPerSecond == 0 ==> r == Fail(DivideByZero)
    ensures r.Ok? ==> Valid(r.value)
    ensures r.Ok? ==> r.value.tokens == 0 && r.value.counter == 0 && r.value.window == []
    ensures r.Ok? ==> r.value.realPerSecond == 0 && r.value.rate == countPerSecond
    ensures r.Ok? ==> r.value.capacity == capacity
    ensures r.Ok? ==> r.value.cpuPercent == cpuPercent && r.value.memPercent == memPercent
  {
    if capacity < 0 then Fail(NegativeBufferSize)
    else
      match Rate.RefillInterval(countPerSecond)
      case Fail(p) => Fail(p)
      case Ok(d) => Ok(Bucket(capacity, 0, countPerSecond, d, 0, 0, [], cpuPercent, memPercent))
  }

  /** `doAdd`: one token more when the buffer is below `Capacity`, otherwise
      the tick is lost. Nothing but the buffer changes. */
  function DoAdd(b: Bucket): (r: Bucket)
    ensures b.tokens < b.capacity ==> r.tokens == b.tokens + 1
    ensures b.tokens >= b.capacity ==> r.tokens == b.tokens
    ensures r == b.(tokens := r.tokens)
    ensures Valid(b) ==> Valid(r)
  {
    if b.tokens < b.capacity then b.(tokens := b.tokens + 1) else b
  }

  /** The outcome of an acquire: whether a token was granted, and the state after. */
  datatype Grant = Grant(granted: bool, bucket: Bucket)

  /** `GetToken`: the attempt is always counted; a token is granted exactly
      when the buffer holds one, and then exactly one token leaves it. */
  function GetToken(b: Bucket): (r: Grant)
    ensures r.bucket.counter == b.counter + 1
    ensures r.granted <==> b.tokens > 0
    ensures r.granted ==> r.bucket.tokens + 1 == b.tokens
    ensures !r.granted ==> r.bucket.tokens == b.tokens
    ensures r.bucket == b.(tokens := r.bucket.tokens, counter := r.bucket.counter)
    ensures Valid(b) ==> Valid(r.bucket)
  {
    var counted := b.(counter := b.counter + 1);
    if b.tokens > 0 then Grant(true, counted.(tokens := b.tokens - 1))
    else Grant(false, counted)
  }

  /** The body of `resetAndSaveCounter`: trim the window, push this second's
      demand, zero the counter and take the window's maximum as the observed
      rate. The trim keeps at most ten samples from a window of at most
      eleven, so the window holds at most eleven samples after the push. */
  function Snapshot(b: Bucket): (r: Bucket)
    ensures |b.window| <= Window.Keep + 1 ==> |r.window| <= Window.Keep + 1
    ensures |b.window| <= Window.Keep ==> |r.window| == |b.window| + 1
    ensures |b.window| == Window.Keep + 1 ==> |r.window| == Window.Keep + 1
    ensures 1 <= |r.window| <= |b.window| + 1 && r.window[|r.window| - 1] == b.counter
    ensures r.window[..|r.window| - 1] == b.window[|b.window| - (|r.window| - 1)..]
    ensures r.counter == 0
    ensures r.realPerSecond >= 0 && r.realPerSecond >= b.counter
    ensures forall i :: 0 <= i < |r.window| ==> r.window[i] <= r.realPerSecond
    ensures r.realPerSecond == 0 || exists i :: 0 <= i < |r.window| && r.window[i] == r.realPerSecond
    ensures r == b.(window := r.window, counter := 0, realPerSecond := r.realPerSecond)
    ensures Valid(b) ==> Valid(r)
  {
    var w := Fifo.Push(Window.Trimmed(b.window), b.counter);
    b.(window := w, counter := 0, realPerSecond := Window.MaxOf(w))
  }

  /** `doUpdateRate`: replace the refill ticker by one at the current rate. */
  function DoUpdateRate(b: Bucket): (r: Result<Bucket>)
    ensures r.Ok? <==> 1 <= b.rate <= Rate.NanosPerSecond
    ensures r.Ok? ==> r.value == b.(interval := r.value.interval)
    ensures r.Ok? ==> Rate.RefillInterval(b.rate) == Ok(r.value.interval)
  {
    match Rate.RefillInterval(b.rate)
    case Fail(p) => Fail(p)
    case Ok(d) => Ok(b.(interval := d))
  }

  /** The body of `updateRate` for one pair of readings: cut the rate when
      either reading is above `MemPercent` and rebuild the ticker; then, with
      both readings below 80% of `MemPercent` and the observed rate above the
      (possibly cut) rate, raise it and rebuild the ticker again.

      From a valid state this follows the pure decision `Rate.NextRate`. It
      panics exactly when the raised rate passes one billion per second, where
      the refill period rounds to zero; the cut never panics. Otherwise the
      state stays valid and only the rate and the ticker change. */
  function UpdateRate(b: Bucket, cpu: real, mem: real): (r: Result<Bucket>)
    ensures Valid(b) ==>
              (r.Ok? <==> Rate.NextRate(b.rate, cpu, mem, b.memPercent, b.realPerSecond) <= Rate.NanosPerSecond)
    ensures Valid(b) && r.Fail? ==> r.panic == NonPositiveInterval
    ensures Valid(b) && r.Ok? ==>
              && Valid(r.value)
              && r.value.rate == Rate.NextRate(b.rate, cpu, mem, b.memPercent, b.realPerSecond)
    ensures r.Ok? ==> r.value == b.(rate := r.value.rate, interval := r.value.interval)
    ensures !Rate.Rebuilds(b.rate, cpu, mem, b.memPercent, b.realPerSecond) ==> r == Ok(b)
  {
    var afterCut :=
      if Rate.Overloaded(cpu, mem, b.memPercent) then DoUpdateRate(b.(rate := Rate.Decrease(b.rate)))
      else Ok(b);
    match afterCut
    case Fail(p) => Fail(p)
    case Ok(c) =>
      if Rate.Underloaded(cpu, mem, b.memPercent) && c.realPerSecond > c.rate
      then DoUpdateRate(c.(rate := Rate.Increase(c.rate)))
      else Ok(c)
  }

  /** The CPU threshold given to the constructor has no effect on adaptation. */
  lemma {:induction false} CpuPercentUnused(b: Bucket, cpuPercent: real, cpu: real, mem: real)
    ensures UpdateRate(b.(cpuPercent := cpuPercent), cpu, mem).Ok? == UpdateRate(b, cpu, mem).Ok?
    ensures UpdateRate(b, cpu, mem).Ok? ==>
              UpdateRate(b.(cpuPercent := cpuPercent), cpu, mem).value
                == UpdateRate(b, cpu, mem).value.(cpuPercent := cpuPercent)
  {
    var b' := b.(cpuPercent := cpuPercent);
    if Rate.Overloaded(cpu, mem, b.memPercent) {
      var cut := Rate.Decrease(b.rate);
      assert DoUpdateRate(b'.(rate := cut)).Ok? == DoUpdateRate(b.(rate := cut)).Ok?;
    }
  }
}

=== FILE: fifo.dfy ===
/** The `Queue` of `Queue.go`: a slice of int64 used as a first-in first-out
    buffer. Appending at the tail and removing at the head are the only
    operations; the slice is modelled as a sequence of unbounded integers. */
module Fifo {

  type Queue = seq<int>

  /** `Push` appends `v` after every element already held. */
  function Push(q: Queue, v: int): (r: Queue)
    ensures |r| == |q| + 1
    ensures r[..|q|] == q
    ensures r[|q|] == v
  {
    q + [v]
  }

  /** `Pop` reads `(*q)[0]`, which panics on an empty slice, so the caller
      must hand it a non-empty queue. It yields the head and the rest. */
  function Pop(q: Queue): (r: (int, Queue))
    requires |q| > 0
    ensures [r.0] + r.1 == q
  {
    (q[0], q[1..])
  }

  /** First in, first out: on an empty queue the value pushed is the value popped. */
  lemma PopPushedOnEmpty(v: int)
    ensures Pop(Push([], v)) == (v, [])
  {
  }

  /** On a non-empty queue a push does not disturb the head: popping yields the
      old head, and the rest is the old rest with `v` appended. */
  lemma PopAfterPush(q: Queue, v: int)
    requires |q| > 0
    ensures Pop(Push(q, v)).0 == Pop(q).0
    ensures Pop(Push(q, v)).1 == Push(Pop(q).1, v)
  {
    assert Push(q, v)[1..] == q[1..] + [v];
  }
}

=== FILE: panics.dfy ===
/** The runtime panics the token bucket can raise, and a result type that
    carries either a value or the panic that stopped the computation. */
module Panics {

  datatype Panic =
    | NegativeBufferSize   // `make(chan bool, capacity)` with capacity < 0
    | DivideByZero         // `int64(time.Second) / CountPerSecond` with a zero rate
    | NonPositiveInterval  // `time.NewTicker` given a duration <= 0

  datatype Result<+T> = Ok(value: T) | Fail(panic: Panic)
}

=== FILE: rate.dfy ===
/** The rate-adaptation decision of `updateRate` and the refill interval of
    `getDuration`, as pure functions of the values they read.

    Integers follow Go's int64 division, which truncates toward zero; the
    percentages are exact reals. Both load checks compare the CPU reading with
    `MemPercent`: the separate `CpuPercent` threshold is stored by the
    constructor but never read, and this model keeps that behaviour. */
module Rate {
  import opened Panics

  /** `int64(time.Second)`: nanoseconds per second. */
  const NanosPerSecond := 1_000_000_000

  /** Go's integer division `a / b`, which truncates toward zero (Dafny's `/`
      is Euclidean and differs for negative operands). */
  function Quo(a: int, b: int): (q: int)
    requires b != 0
    ensures a >= 0 && b > 0 ==> q == a / b
    ensures a < 0 && b > 0 ==> q == -((-a) / b)
    ensures a >= 0 && b < 0 ==> q == -(a / (-b))
    ensures a < 0 && b < 0 ==> q == (-a) / (-b)
  {
    var m := (if a < 0 then -a else a) / (if b < 0 then -b else b);
    if (a < 0) != (b < 0) then -m else m
  }

  /** `Quo` is Go's definition of integer division: with the remainder
      `a - Quo(a, b) * b`, the remainder is smaller than the divisor in
      magnitude and is either zero or has the sign of the dividend. */
  lemma QuoTruncates(a: int, b: int)
    requires b != 0
    ensures var rem := a - Quo(a, b) * b;
            && (if rem < 0 then -rem else rem) < (if b < 0 then -b else b)
            && (rem == 0 || (rem < 0) == (a < 0))
  {
    var aa, bb := (if a < 0 then -a else a), (if b < 0 then -b else b);
    assert aa == (aa / bb) * bb + aa % bb;
  }

  /** `getDuration`: the refill period in nanoseconds, one second divided by
      the rate; a zero rate is Go's integer-division panic. For a positive
      rate the period is the floor of 1e9 / rate, and it is zero exactly when
      the rate exceeds one billion per second. */
  function GetDuration(rate: int): (d: Result<int>)
    ensures d.Ok? <==> rate != 0
    ensures d.Fail? ==> d.panic == DivideByZero
    ensures rate > 0 ==> 0 <= d.value * rate <= NanosPerSecond < (d.value + 1) * rate
    ensures rate > 0 ==> (d.value > 0 <==> rate <= NanosPerSecond)
    ensures rate < 0 ==> d.value <= 0
  {
    if rate == 0 then Fail(DivideByZero)
    else
      var d := Quo(NanosPerSecond, rate);
      assert rate > 0 ==> 0 <= d * rate <= NanosPerSecond < (d + 1) * rate by {
        if rate > 0 { FloorDivides(NanosPerSecond, rate); }
      }
      Ok(d)
  }

  /** Euclidean division of a natural number by a positive one brackets it. */
  lemma FloorDivides(n: nat, d: int)
    requires d > 0
    ensures 0 <= (n / d) * d <= n < (n / d + 1) * d
  {
    assert n == (n / d) * d + n % d;
  }

  /** `time.NewTicker(getDuration())`: the ticker panics on a period that is
      not positive, so a refill ticker exists exactly for the rates from 1 to
      one billion per second. */
  function RefillInterval(rate: int): (t: Result<int>)
    ensures t.Ok? <==> 1 <= rate <= NanosPerSecond
    ensures t.Ok? ==> 1 <= t.value <= NanosPerSecond && t == GetDuration(rate)
    ensures rate == 0 ==> t == Fail(DivideByZero)
    ensures rate != 0 && t.Fail? ==> t.panic == NonPositiveInterval
  {
    match GetDuration(rate)
    case Fail(p) => Fail(p)
    case Ok(d) => if d <= 0 then Fail(NonPositiveInterval) else Ok(d)
  }

  /** The 10% cut `r - r/10`: a rate of at least one never drops to zero or
      below, and it only falls once the rate reaches ten. */
  function Decrease(rate: int): (r: int)
    ensures rate >= 1 ==> 1 <= r <= rate
    ensures rate >= 10 ==> r < rate
    ensures 0 <= rate < 10 ==> r == rate
  {
    rate - Quo(rate, 10)
  }

  /** The 10% rise `r + r/10`: never lowers a non-negative rate, and only
      raises it once the rate reaches ten. */
  function Increase(rate: int): (r: int)
    ensures rate >= 0 ==> rate <= r <= rate + rate / 10
    ensures rate >= 10 ==> r > rate
    ensures 0 <= rate < 10 ==> r == rate
  {
    rate + Quo(rate, 10)
  }

  /** The decrease condition: either reading above `MemPercent`. */
  predicate Overloaded(cpu: real, mem: real, memPercent: real) {
    cpu > memPercent || mem > memPercent
  }

  /** The increase condition on load: both readings below 80% of `MemPercent`. */
  predicate Underloaded(cpu: real, mem: real, memPercent: real) {
    var low := memPercent - memPercent / 5.0;
    cpu < low && mem < low
  }

  /** One pass of the decision in `updateRate`: the decrease check runs first,
      and the increase check runs afterwards against the possibly decreased
      rate. `observed` is `RealPerSecond`. */
  function NextRate(rate: int, cpu: real, mem: real, memPercent: real, observed: int): (r: int)
    ensures rate >= 1 ==> r >= 1
    ensures 1 <= rate < 10 ==> r == rate
    ensures rate >= 0 && memPercent >= 0.0 && Overloaded(cpu, mem, memPercent) ==>
              r == rate - rate / 10
    ensures rate >= 0 && Overloaded(cpu, mem, memPercent) && !Underloaded(cpu, mem, memPercent) ==>
              r == rate - rate / 10
    ensures rate >= 0 && !Overloaded(cpu, mem, memPercent) ==>
              r == (if Underloaded(cpu, mem, memPercent) && observed > rate
                        then rate + rate / 10 else rate)
    ensures rate >= 0 && Overloaded(cpu, mem, memPercent) && Underloaded(cpu, mem, memPercent) ==>
              r == (if observed > rate - rate / 10
                    then (rate - rate / 10) + (rate - rate / 10) / 10 else rate - rate / 10)
    ensures rate >= 0 && memPercent >= 0.0 && r < rate ==> Overloaded(cpu, mem, memPercent)
    ensures rate >= 0 && memPercent >= 0.0 && r > rate ==>
              Underloaded(cpu, mem, memPercent) && observed > rate
    ensures rate >= 0 && cpu >= 0.0 && mem >= 0.0 && Overloaded(cpu, mem, memPercent) ==>
              r == rate - rate / 10
    ensures rate >= 0 && cpu >= 0.0 && mem >= 0.0 && r < rate ==> Overloaded(cpu, mem, memPercent)
    ensures rate >= 0 && cpu >= 0.0 && mem >= 0.0 && r > rate ==>
              Underloaded(cpu, mem, memPercent) && observed > rate
  {
    var afterCut := if Overloaded(cpu, mem, memPercent) then Decrease(rate) else rate;
    if Underloaded(cpu, mem, memPercent) && observed > afterCut then Increase(afterCut)
    else afterCut
  }

  /** With a threshold of at least zero the two checks exclude each other,
      because 80% of the threshold lies below the threshold. */
  lemma ChecksExclusive(cpu: real, mem: real, memPercent: real)
    requires memPercent >= 0.0
    ensures !(Overloaded(cpu, mem, memPercent) && Underloaded(cpu, mem, memPercent))
  {
  }

  /** The readings are percentages and never negative, and with such readings
      the two checks exclude each other whatever the threshold: a negative
      threshold makes the idle condition demand negative readings. So for the
      readings the host reports, the two `if`s act as an if/else. */
  lemma ChecksExclusiveForReadings(cpu: real, mem: real, memPercent: real)
    requires cpu >= 0.0 && mem >= 0.0
    ensures !(Overloaded(cpu, mem, memPercent) && Underloaded(cpu, mem, memPercent))
  {
  }

  /** With a negative threshold and negative readings, inputs the host never
      reports, both checks fire in one pass: the rate is cut and then raised
      again, ending below where it started. */
  lemma BothChecksFireBelowZero()
    ensures Overloaded(-9.0, -9.0, -10.0) && Underloaded(-9.0, -9.0, -10.0)
    ensures NextRate(100, -9.0, -9.0, -10.0, 1000) == 99
  {
  }

  /** Whether one pass of `updateRate` calls `doUpdateRate`: the cut always
      does, and the rise does when the idle host sees demand above the
      possibly cut rate. The ticker is rebuilt even when the new rate equals
      the old one, as for rates below ten. */
  predicate Rebuilds(rate: int, cpu: real, mem: real, memPercent: real, observed: int) {
    || Overloaded(cpu, mem, memPercent)
    || (Underloaded(cpu, mem, memPercent) && observed > rate)
  }

  /** The rate moves only in a pass that rebuilds the ticker; from ten upwards,
      with a threshold of zero or more, a pass rebuilds exactly when the rate
      moves. Below ten a pass can rebuild and leave the rate as it was. */
  lemma {:induction false} RateMovesOnlyOnRebuild(rate: int, cpu: real, mem: real, memPercent: real, observed: int)
    ensures !Rebuilds(rate, cpu, mem, memPercent, observed) ==> NextRate(rate, cpu, mem, memPercent, observed) == rate
    ensures rate >= 10 && memPercent >= 0.0 ==>
              (Rebuilds(rate, cpu, mem, memPercent, observed) <==> NextRate(rate, cpu, mem, memPercent, observed) != rate)
    ensures 1 <= rate < 10 && Overloaded(cpu, mem, memPercent) ==>
              Rebuilds(rate, cpu, mem, memPercent, observed) && NextRate(rate, cpu, mem, memPercent, observed) == rate
  {
    if rate >= 10 && memPercent >= 0.0 {
      ChecksExclusive(cpu, mem, memPercent);
    }
  }

  /** The stored CPU threshold plays no part: a reading is judged against
      `MemPercent` alone, so a CPU reading just above `MemPercent` cuts the
      rate even when memory is idle. */
  lemma CpuJudgedByMemoryThreshold(rate: int, memPercent: real, cpu: real)
    requires rate >= 10 && memPercent >= 0.0 && cpu > memPercent
    ensures NextRate(rate, cpu, 0.0, memPercent, 0) < rate
  {
  }
}

=== FILE: trace.dfy ===
/** Runs of the bucket: the three background loops (`add`, `updateRate`,
    `resetAndSaveCounter`) and the callers of `GetToken` interleave, and each
    loop body is taken as one indivisible step. A run is a sequence of such
    steps; the lemmas here are the bucket's guarantees over whole runs. */
module Trace {
  import opened Panics
  import Bucket
  import Window
  import Rate

  datatype Event =
    | Refill                        // one tick of `AddTimer`: `doAdd`
    | Acquire                       // one caller's `GetToken`
    | Snapshot                      // one tick of `ResetCounterTimer`
    | Adapt(cpu: real, mem: real)   // one tick of `UpdateTimer`, with the readings

  /** One step; only an acquire can grant a token, and only adaptation can panic. */
  function Step(b: Bucket.Bucket, e: Event): (r: Result<Bucket.Grant>)
    ensures r.Ok? && r.value.granted ==> e.Acquire?
    ensures r.Fail? ==> e.Adapt?
  {
    match e
    case Refill => Ok(Bucket.Grant(false, Bucket.DoAdd(b)))
    case Acquire => Ok(Bucket.GetToken(b))
    case Snapshot => Ok(Bucket.Grant(false, Bucket.Snapshot(b)))
    case Adapt(cpu, mem) =>
      match Bucket.UpdateRate(b, cpu, mem)
      case Fail(p) => Fail(p)
      case Ok(c) => Ok(Bucket.Grant(false, c))
  }

  /** The state at the end of a run, and the number of tokens it granted. */
  datatype Outcome = Outcome(bucket: Bucket.Bucket, granted: nat)

  /** The number of events in a run that satisfy `p`. */
  function Count(es: seq<Event>, p: Event -> bool): nat {
    if |es| == 0 then 0 else (if p(es[0]) then 1 else 0) + Count(es[1..], p)
  }

  function Refills(es: seq<Event>): nat { Count(es, (e: Event) => e.Refill?) }

  function Acquires(es: seq<Event>): nat { Count(es, (e: Event) => e.Acquire?) }

  function Snapshots(es: seq<Event>): nat { Count(es, (e: Event) => e.Snapshot?) }

  /** Runs the events in order, stopping at the first panic. Every grant is
      one acquire's success, so a run grants at most as many tokens as it
      has acquires. */
  function Run(b: Bucket.Bucket, es: seq<Event>): (r: Result<Outcome>)
    ensures r.Ok? ==> r.value.granted <= Acquires(es)
    ensures (forall i :: 0 <= i < |es| ==> !es[i].Adapt?) ==> r.Ok?
    decreases |es|
  {
    if |es| == 0 then Ok(Outcome(b, 0))
    else
      match Step(b, es[0])
      case Fail(p) => Fail(p)
      case Ok(g) =>
        match Run(g.bucket, es[1..])
        case Fail(p) => Fail(p)
        case Ok(o) => Ok(Outcome(o.bucket, o.granted + if g.granted then 1 else 0))
  }

  /** Every state a run reaches from a valid state is valid: at most
      `Capacity` tokens, a positive rate with a working refill ticker, at most
      eleven samples in the window, and the observed rate equal to the
      window's maximum. */
  lemma {:induction false} RunKeepsValid(b: Bucket.Bucket, es: seq<Event>)
    requires Bucket.Valid(b)
    ensures Run(b, es).Ok? ==> Bucket.Valid(Run(b, es).value.bucket)
    decreases |es|
  {
    if |es| > 0 && Step(b, es[0]).Ok? {
      RunKeepsValid(Step(b, es[0]).value.bucket, es[1..]);
    }
  }

  /** Tokens are conserved: what a run grants plus what is left in the buffer
      is at most what was buffered at the start plus one per refill tick. */
  lemma {:induction false} TokensConserved(b: Bucket.Bucket, es: seq<Event>)
    ensures Run(b, es).Ok? ==>
              Run(b, es).value.granted + Run(b, es).value.bucket.tokens <= b.tokens + Refills(es)
    decreases |es|
  {
    if |es| > 0 && Step(b, es[0]).Ok? {
      TokensConserved(Step(b, es[0]).value.bucket, es[1..]);
    }
  }

  /** Admission bound: over any run from a valid state, the successful
      acquires never exceed `Capacity` plus the refill ticks in that run. */
  lemma AdmissionBound(b: Bucket.Bucket, es: seq<Event>)
    requires Bucket.Valid(b)
    ensures Run(b, es).Ok? ==> Run(b, es).value.granted <= b.capacity + Refills(es)
  {
    TokensConserved(b, es);
  }

  /** A new bucket starts empty: until the first refill tick every acquire
      fails, however many are made. */
  lemma NoGrantBeforeRefill(capacity: int, countPerSecond: int, cpuPercent: real, memPercent: real,
                            es: seq<Event>)
    requires Bucket.New(capacity, countPerSecond, cpuPercent, memPercent).Ok?
    requires Refills(es) == 0
    ensures var b := Bucket.New(capacity, countPerSecond, cpuPercent, memPercent).value;
            Run(b, es).Ok? ==> Run(b, es).value.granted == 0
  {
    TokensConserved(Bucket.New(capacity, countPerSecond, cpuPercent, memPercent).value, es);
  }

  /** Demand is counted exactly: with no snapshot in between, the counter
      grows by one per acquire, granted or not, and by nothing else. */
  lemma {:induction false} DemandCounted(b: Bucket.Bucket, es: seq<Event>)
    requires forall i :: 0 <= i < |es| ==> !es[i].Snapshot?
    ensures Run(b, es).Ok? ==> Run(b, es).value.bucket.counter == b.counter + Acquires(es)
    decreases |es|
  {
    if |es| > 0 && Step(b, es[0]).Ok? {
      assert forall i :: 0 <= i < |es[1..]| ==> es[1..][i] == es[i + 1];
      DemandCounted(Step(b, es[0]).value.bucket, es[1..]);
    }
  }

  /** The window fills one sample per snapshot up to eleven samples and then
      stays at eleven, whatever refills, acquires and adaptation passes come
      in between: the observed rate is the maximum over the last eleven
      seconds, not ten. */
  lemma {:induction false} WindowFills(b: Bucket.Bucket, es: seq<Event>)
    requires |b.window| <= Window.Keep + 1
    ensures Run(b, es).Ok? ==>
              |Run(b, es).value.bucket.window| ==
                if |b.window| + Snapshots(es) <= Window.Keep + 1 then |b.window| + Snapshots(es)
                else Window.Keep + 1
    decreases |es|
  {
    if |es| > 0 && Step(b, es[0]).Ok? {
      var next := Step(b, es[0]).value.bucket;
      if es[0].Adapt? {
        assert next.window == b.window;
      }
      WindowFills(next, es[1..]);
    }
  }

  /** Runs as the program makes them. `add` takes the ticker's channel once
      when it enters its `select` (SmartTokenBucket.go:51-52) and waits there;
      `doUpdateRate` installs a new ticker and stops the old one (:124-126),
      and a stopped ticker neither ticks nor closes its channel. So once a
      pass rebuilds the ticker while `add` waits on the old channel, no refill
      tick is ever delivered again. `stalled` records that this has happened;
      refill ticks after it change nothing. What a run grants plus what is
      left is then at most what was buffered when it stalled. */
  function ProgramRun(b: Bucket.Bucket, es: seq<Event>, stalled: bool): (r: Result<Outcome>)
    ensures r.Ok? ==>
              r.value.granted + r.value.bucket.tokens <= b.tokens + (if stalled then 0 else Refills(es))
    ensures (forall i :: 0 <= i < |es| ==> !es[i].Adapt?) ==> r.Ok?
    decreases |es|
  {
    if |es| == 0 then Ok(Outcome(b, 0))
    else if stalled && es[0].Refill? then ProgramRun(b, es[1..], stalled)
    else
      match Step(b, es[0])
      case Fail(p) => Fail(p)
      case Ok(g) =>
        var stalls := stalled || (es[0].Adapt? &&
                                  Rate.Rebuilds(b.rate, es[0].cpu, es[0].mem, b.memPercent, b.realPerSecond));
        match ProgramRun(g.bucket, es[1..], stalls)
        case Fail(p) => Fail(p)
        case Ok(o) => Ok(Outcome(o.bucket, o.granted + if g.granted then 1 else 0))
  }

  /** Until a pass rebuilds the ticker the program's runs are the model's
      runs: with no adaptation pass at all, the two agree on every run. */
  lemma {:induction false} ProgramRunAgrees(b: Bucket.Bucket, es: seq<Event>)
    requires forall i :: 0 <= i < |es| ==> !es[i].Adapt?
    ensures ProgramRun(b, es, false) == Run(b, es)
    decreases |es|
  {
    if |es| > 0 {
      assert forall i :: 0 <= i < |es[1..]| ==> es[1..][i] == es[i + 1];
      ProgramRunAgrees(Step(b, es[0]).value.bucket, es[1..]);
    }
  }

  /** The refill loop stops after the first rate change. A bucket of capacity
      10 at 100 tokens per second with a threshold of 80%: a CPU reading of 90%
      cuts the rate to 90 and rebuilds the ticker. In the program the next
      refill tick never arrives and the acquire after it fails; with refills
      continuing at the new rate, as intended, the acquire succeeds. */
  lemma RebuildStallsRefill()
    ensures Bucket.New(10, 100, 0.0, 80.0).Ok?
    ensures var b := Bucket.New(10, 100, 0.0, 80.0).value;
            var es := [Adapt(90.0, 0.0), Refill, Acquire];
            && ProgramRun(b, es, false) == Ok(Outcome(ProgramRun(b, es, false).value.bucket, 0))
            && Run(b, es).Ok? && Run(b, es).value.granted == 1
  {
    var b := Bucket.New(10, 100, 0.0, 80.0).value;
    assert Rate.RefillInterval(90) == Ok(11_111_111);
    assert Bucket.UpdateRate(b, 90.0, 0.0).Ok?;
  }

  /** As intended, a refill tick after an adaptation pass still adds a token
      whenever the buffer has room, at whatever rate the pass chose. */
  lemma RefillAfterAdapt(b: Bucket.Bucket, cpu: real, mem: real)
    requires Bucket.Valid(b) && b.tokens < b.capacity
    ensures Bucket.UpdateRate(b, cpu, mem).Ok? ==>
              && Run(b, [Adapt(cpu, mem), Refill]).Ok?
              && Run(b, [Adapt(cpu, mem), Refill]).value.bucket.tokens == b.tokens + 1
  {
    var es := [Adapt(cpu, mem), Refill];
    if Bucket.UpdateRate(b, cpu, mem).Ok? {
      var c := Bucket.UpdateRate(b, cpu, mem).value;
      assert Step(b, es[0]) == Ok(Bucket.Grant(false, c));
      assert es[1..] == [Refill];
      var d := Bucket.DoAdd(c);
      assert Run(d, [Refill][1..]) == Ok(Outcome(d, 0));
      assert Run(c, [Refill]) == Ok(Outcome(d, 0));
    }
  }
}

=== FILE: window.dfy ===
/** The per-second demand window of `resetAndSaveCounter`: the trim loop that
    drops the oldest samples, and the scan that takes the largest sample.
    Both are written as the loops of `SmartTokenBucket.go` and proved equal to
    closed-form reference definitions. */
module Window {
  import Fifo

  /** The offset in the trim loop's guard `i < len - 10`. From at most eleven
      samples the loop trims down to this many; from more it stops above it. */
  const Keep := 10

  /** Samples popped by the trim loop from a window of length `n`. The loop
      compares its counter `i` with `len - 10` and re-reads the length after
      every pop, so the two approach each other two steps at a time: it pops
      ceil((n - 10) / 2) samples, not n - 10. */
  function PopCount(n: nat): (k: nat)
    ensures k <= n
    ensures n <= Keep + 1 ==> k == (if n <= Keep then 0 else n - Keep)
    ensures n > Keep ==> 2 * k >= n - Keep && 2 * k <= n - Keep + 1
  {
    if n <= Keep then 0 else (n - Keep + 1) / 2
  }

  /** The window left by the trim loop: the newest samples, in order. */
  function Trimmed(w: seq<int>): (t: seq<int>)
    ensures |t| <= |w| && t == w[|w| - |t|..]
    ensures |w| <= Keep + 1 ==> |t| == (if |w| <= Keep then |w| else Keep)
    ensures |w| >= Keep ==> |t| >= Keep
    ensures |w| > Keep + 1 ==> Keep < |t| < |w|
  {
    w[PopCount(|w|)..]
  }

  /** The trim loop at SmartTokenBucket.go:141-143, with `Pop` at each step.
      The loop guard keeps more than ten samples in the queue whenever it pops,
      so it never pops an empty queue. */
  method TrimWindow(w: seq<int>) returns (t: seq<int>)
    ensures t == Trimmed(w)
    ensures |w| <= Keep + 1 ==> |t| <= Keep
  {
    var q := w;
    var i := 0;
    while i < |q| - Keep
      invariant 0 <= i <= |w|
      invariant q == w[i..]
      invariant i == 0 || 2 * i <= |w| - Keep + 1
      decreases |q| - Keep - i
    {
      var popped := Fifo.Pop(q);
      q := popped.1;
      i := i + 1;
    }
    t := q;
  }

  /** The observed rate of a window: the largest of 0 and all its samples,
      which is 0 for an empty window. */
  function MaxOf(w: seq<int>): (m: int)
    ensures m >= 0
    ensures forall i :: 0 <= i < |w| ==> w[i] <= m
    ensures m == 0 || exists i :: 0 <= i < |w| && w[i] == m
  {
    if |w| == 0 then 0
    else
      var rest := MaxOf(w[..|w| - 1]);
      if rest < w[|w| - 1] then w[|w| - 1] else rest
  }

  /** The scan at SmartTokenBucket.go:152-157: start from 0 and raise the
      running value whenever a larger sample is met. */
  method WindowMax(w: seq<int>) returns (m: int)
    ensures m == MaxOf(w)
  {
    m := 0;
    var i := 0;
    while i < |w|
      invariant 0 <= i <= |w|
      invariant m == MaxOf(w[..i])
    {
      assert w[..i + 1][..i] == w[..i];
      if m < w[i] {
        m := w[i];
      }
      i := i + 1;
    }
    assert w[..|w|] == w;
  }

  /** Pushing a sample can only raise the observed rate, and the result
      covers the new sample. */
  lemma {:induction false} MaxOfPush(w: seq<int>, v: int)
    ensures MaxOf(Fifo.Push(w, v)) >= MaxOf(w)
    ensures MaxOf(Fifo.Push(w, v)) >= v
    ensures v >= MaxOf(w) ==> MaxOf(Fifo.Push(w, v)) == (if v < 0 then 0 else v)
  {
    var p := Fifo.Push(w, v);
    assert p[..|p| - 1] == w;
  }
}
